=== FILE: README.md ===
# Agent ledger and idea board — a Dafny model

This project models the pure logic of three small web applications in one repository.

- **Agent ledger.** A dashboard tracks the spend of AI agents.
  - The action endpoint (`POST /api/actions`) enforces the limits. It runs four checks in order: unknown agent (404), paused agent (403), cost above the per-action limit (400), month total above the monthly budget (403).
  - When the budget check fails, the agent is paused and one `budget_exceeded` alert is written, in one transaction, and nothing is logged. Otherwise exactly one action log is written (201).
  - The agents endpoint lists the agents newest first. It adds each agent's current-month spend and remaining budget. It also creates agents, with status `active` by default.
  - The agent card turns the name into an avatar URL through a string hash. It classifies budget usage into over, warning and normal.
- **Idea board** ("Commitment Canvas"). A list of ideas in two columns, committed and considering.
  - The handlers add an idea after the form's length checks, change an idea's status, delete an idea after confirmation, and invite a participant to the selected ideas.
  - The invite dialog has project checkboxes, and a pre-selected project's box cannot be unchecked.

The model has no database, clock or randomness.
- The store is three sequences: agents, action logs and alerts.
- Every handler is a pure function from the store and the request to a new store and a response.
- The clock gives the first instant of the month and the current time. These, the ids the database assigns, the confirmation answer and the randomly chosen participant are all parameters.
- Money is `real`. Timestamps are integer milliseconds.
- Strings are `string`. Where JavaScript counts or hashes characters it sees UTF-16 code units, and `Text.Utf16` produces exactly those.

Modules: `Options` (optional values), `Seqs` (order-preserving filter), `Text` (UTF-16 code units and decimal rendering), `Ledger` (records, store, month spend), `Actions` (the enforcer), `Agents` (listing and creation), `AgentCard` (card helpers), `Board` (idea board).

## Model

| member | source | states |
|---|---|---|
| `Ledger.FindAgent` | agent-ledger/src/app/api/actions/route.ts:9-15 | The lookup by id returns the position of an agent with that id, and none precedes it. It returns nothing exactly when no agent has the id. |
| `Ledger.MonthSpend` | agent-ledger/src/app/api/actions/route.ts:31-43 | The month spend is the sum of the costs of the agent's logs dated at or after the month start. It is 0 when no log matches, and it is non-negative when all costs are. |
| `Ledger.MonthSpendAppend` | agent-ledger/src/app/api/actions/route.ts:35-43 | A new log raises the spend of exactly the agent and month window it falls into, by its cost. |
| `Actions.StoredMetadata` | agent-ledger/src/app/api/actions/route.ts:77 | Absent or empty metadata is stored as null. Any other metadata is stored as given. |
| `Actions.SubmitAction` | agent-ledger/src/app/api/actions/route.ts:4-81 | The checks run in order and the first failure decides, answering 404 iff the id is unknown, 400 iff the limit check fails, 403 iff the agent is paused or the budget check fails, and 201 iff a log was written: not found iff the id is unknown; paused iff the agent is paused; per-action 400 iff cost > limit (equality passes); budget 403 iff spend + cost > budget (equality is accepted). The early rejections leave the store unchanged. Over budget: every agent with the id is paused, nothing else about the agents changes, logs are unchanged, and exactly one alert is appended, carrying the budget and the attempted total. Accepted: exactly one log is appended, with agent id, type, target, cost and outcome copied and the metadata normalised, while agents and alerts are unchanged. |
| `Actions.PauseAndAlertAtomic` | agent-ledger/src/app/api/actions/route.ts:47-66 | One request changes some agent's status iff it adds an alert. It adds at most one alert, and the agent the alert names ends paused. |
| `Actions.StepKeepsPaused` | agent-ledger/src/app/api/actions/route.ts:49-53 | In one request the only status ever written is `paused`. No other agent field changes. |
| `Actions.PausedIsAbsorbing` | agent-ledger/src/app/api/actions/route.ts:18-53 | Over any sequence of action submissions a paused agent stays paused. Reset and the agent update endpoint are other writers and are not covered. Every status either stays or becomes `paused`, and no other agent field changes. |
| `Actions.StepKeepsValid` | agent-ledger/src/app/api/actions/route.ts:49-79 | Handling a request keeps agent ids unique. Every log and alert still names an existing agent. |
| `Actions.StepKeepsWithinBudget` | agent-ledger/src/app/api/actions/route.ts:43-79 | If agent ids are unique and every agent's spend in the month is within its budget, the same holds after one action submission for that month. This does not depend on the current time. |
| `Actions.ReplayKeepsWithinBudget` | agent-ledger/src/app/api/actions/route.ts:43-79 | Action submissions handled one at a time for the same month keep every agent's month spend within its budget. Agent creation (see `Agents.CreateKeepsWithinBudget`) and the agent update endpoint are other writers and are not covered. |
| `Actions.BudgetScenario` | agent-ledger/src/app/api/actions/route.ts:44-66 | A worked case: budget 25, limit 5, 21 spent. A cost of 3 is logged and the agent stays active. A further cost of 4 pauses the agent, writes one alert reporting 25 and 28, and logs nothing. |
| `Agents.MonthActions` | agent-ledger/src/app/api/agents/route.ts:7-14 | The fetched month actions are exactly the agent's logs at or after the month start, each as often as it occurs in the log (multiset equality on the window). |
| `Agents.DisplayedSpendIsEnforcedSpend` | agent-ledger/src/app/api/agents/route.ts:23-24 | The dashboard's spend (a left-fold `reduce` over the fetched actions) equals the enforcer's spend (the aggregate over the log) for the same month start. |
| `Agents.Enrich` | agent-ledger/src/app/api/agents/route.ts:23-30 | A listed agent keeps every stored field. Its `monthlySpend` is the enforcer's month spend. Its `budgetRemaining` is the budget minus that spend, with no clamping, so it is negative exactly when the spend exceeds the budget. |
| `Agents.InsertByCreated` | agent-ledger/src/app/api/agents/route.ts:20 | Inserting into a newest-first list keeps it newest first and adds exactly that agent. |
| `Agents.SortNewestFirst` | agent-ledger/src/app/api/agents/route.ts:20 | The listing order is newest first and is a permutation of the agents. |
| `Agents.ListAgents` | agent-ledger/src/app/api/agents/route.ts:4-32 | The listing has one entry per agent, as a permutation, ordered by creation time descending. Each entry carries the enforcer's month spend and the budget minus it. |
| `Agents.InitialStatus` | agent-ledger/src/app/api/agents/route.ts:50 | A present, non-empty status is kept verbatim, whatever its text. Otherwise the status is `active`. |
| `Agents.CreateAgent` | agent-ledger/src/app/api/agents/route.ts:39-54 | Name, role, owner, budget and per-action limit are copied without validation. The status default applies. The agent is appended and the logs and alerts are unchanged. |
| `Agents.CreateKeepsWithinBudget` | agent-ledger/src/app/api/agents/route.ts:43-52 | From a valid store within budget, creating an agent with a fresh id keeps every agent within budget iff the new budget is not negative. Nothing in the endpoint rejects a negative budget. |
| `Agents.CreateKeepsValid` | agent-ledger/src/app/api/agents/route.ts:43-52 | Creating an agent with a fresh id keeps the store valid. The new agent has month spend 0, so its remaining budget is its whole budget. |
| `Text.Utf16` | agent-ledger/src/app/components/AgentCard.tsx:21-22 | The code units `charCodeAt` walks number between one and two per character. When every character is in the BMP there is exactly one per character, equal to the character's value. Each character's units (`Text.CodeUnits`) decode back to it, so a surrogate pair is the right pair in the right order. |
| `Text.DecimalRoundTrip` | agent-ledger/src/app/components/AgentCard.tsx:25 | The decimal rendering of a number reads back as the same number. |
| `AgentCard.ToInt32` | agent-ledger/src/app/components/AgentCard.tsx:22 | The 32-bit conversion behind `<<` gives a value in the signed 32-bit range, congruent to its input modulo 2^32. |
| `AgentCard.HashIsMultiplier31` | agent-ledger/src/app/components/AgentCard.tsx:20-23 | `(hash << 5) - hash` multiplies by 31 modulo 2^32. Wrapped to 32 bits, the loop's hash equals the multiplier-31 string hash `h * 31 + c`, kept in the signed 32-bit range after each step. |
| `AgentCard.ComputeHash` | agent-ledger/src/app/components/AgentCard.tsx:20-23 | The loop's final hash, wrapped to 32 bits, is the multiplier-31 hash of the name's code units. Its unwrapped value is the one the seed is taken from. |
| `AgentCard.AvatarSeed` | agent-ledger/src/app/components/AgentCard.tsx:24 | The seed `abs(hash) % 70 + 1` lies in 1..70 for every name, and is 1 for the empty name. |
| `AgentCard.AvatarUrl` | agent-ledger/src/app/components/AgentCard.tsx:25 | The URL starts with the fixed prefix `https://i.pravatar.cc/150?img=`. |
| `AgentCard.AvatarUrlCarriesSeed` | agent-ledger/src/app/components/AgentCard.tsx:19-26 | Parsing the URL back yields exactly the seed: the prefix is followed by the seed's decimal digits, without a leading zero, and nothing else. |
| `AgentCard.BudgetPercentage` | agent-ledger/src/app/components/AgentCard.tsx:29 | With a non-zero budget the percentage is spend / budget × 100. A zero budget gives NaN iff the spend is zero, +Infinity iff it is positive, and -Infinity iff it is negative. |
| `AgentCard.OverBudgetIsWarning` | agent-ledger/src/app/components/AgentCard.tsx:30-31 | Over budget (≥ 100) implies warning (≥ 80). |
| `AgentCard.UsageLevel` | agent-ledger/src/app/components/AgentCard.tsx:80-88 | Red iff the percentage is ≥ 100. Yellow iff it is ≥ 80 and not ≥ 100. Green or grey iff it is not ≥ 80, which includes NaN. |
| `AgentCard.BarWidth` | agent-ledger/src/app/components/AgentCard.tsx:89 | The bar width is min(percentage, 100). It never exceeds 100 and equals 100 at or above it. It keeps smaller values, -Infinity stays -Infinity, and NaN stays NaN. |
| `AgentCard.StatusLabel` | agent-ledger/src/app/components/AgentCard.tsx:93-94 | The label is "Running" iff the status is exactly `active`. It is "Stopped" for `paused` and every other status. |
| `Board.ColumnsPartition` | src/pages/board.tsx:174-175 | The committed and considering columns split the list. Their sizes add up to the total, their multisets add up to the list's, and every idea is in exactly one column. |
| `Board.FindIdea` | src/pages/board.tsx:359 | `find` returns the first idea with the id. It returns nothing iff no idea has it. |
| `Board.SubmitIdea` | src/pages/board.tsx:281-292 | An idea is added iff the title has ≥ 2 and the description ≥ 5 code units (the form's gates). The idea is appended at the end and earlier ideas are unchanged. It gets the given id, title, description and next step, status considering, empty participants and no commitment time, and the link is absent iff the field was empty. |
| `Board.SubmitIdeaColumns` | src/pages/board.tsx:283-292 | A new idea lands at the end of the considering column. The committed column is unchanged. |
| `Board.SubmitIdeaKeepsIdsUnique` | src/pages/board.tsx:282-292 | With a fresh id, idea ids stay unique. |
| `Board.SetStatus` | src/pages/board.tsx:362-366 | Ideas with the id get the new status. They have a commitment time iff the new status is committed. All other ideas and the length are unchanged. |
| `Board.ChangeStatus` | src/pages/board.tsx:358-378 | Ideas with the id take the new status and keep every other field. They have a commitment time iff the new status is committed. All other ideas and the length are unchanged. The open idea, whatever its id, keeps every other field and takes the new status, with a commitment time iff the new status is committed. The celebration fires iff the first idea with the id was considering and the new status is committed. |
| `Board.CommitMovesOneIdea` | src/pages/board.tsx:362-366 | With unique ids, committing a considered idea moves exactly one idea from the considering column to the committed column. |
| `Board.DeleteIdea` | src/pages/board.tsx:380-389 | Without a matching idea or without confirmation nothing changes. Otherwise the result is the list filtered of the id, which keeps the other ideas in order with their multiplicity. Its multiset is the original minus exactly the ideas with the id, and it is shorter. The detail view closes iff it showed the deleted idea. |
| `Board.DeleteKeepsOrder` | src/pages/board.tsx:383 | Deletion distributes over any split of the list, so the kept ideas keep their relative order. |
| `Board.AddParticipant` | src/pages/board.tsx:335-338 | Afterwards the idea has the participant. If one with that id was already there, the idea is unchanged. Otherwise the participant is appended. |
| `Board.SubmitInvite` | src/pages/board.tsx:328-349 | The invite goes through iff at least one project is selected. Unselected ideas are unchanged and the length is kept. Every selected idea has the participant appended, or is unchanged if someone with that id is already there. The open idea is updated the same way iff it is selected. |
| `Board.InviteKeepsParticipantsDistinct` | src/pages/board.tsx:333-341 | Ideas whose participant ids are distinct keep them distinct after an invite. |
| `Board.ToggleProject` | src/pages/board.tsx:807-811 | A pre-selected project's checkbox changes nothing. Checking appends the id. Unchecking removes every copy of the id and keeps all other ids. |
| `Board.PreselectedStays` | src/pages/board.tsx:798-811 | After any sequence of checkbox clicks a pre-selected project is still selected, so the invite form's at-least-one rule is met. |

## Left out

- Database mechanics. Queries, the transaction and the error path (500 on any thrown error) are not modelled. The pause and the alert are one atomic update of the store.
- Concurrent submissions. Two requests that both read the month spend before either writes can jointly exceed the budget. The model handles requests one at a time, so `Actions.ReplayKeepsWithinBudget` says nothing about that race.
- Lone surrogates. A JavaScript string can hold an unpaired surrogate code unit, but a Dafny `char` cannot, so such names and titles are not modelled.
- The agent update endpoint can lower a budget below the current spend. It is outside the model, so `Actions.ReplayKeepsWithinBudget` covers action submissions only.
- The clock. Both endpoints compute the first instant of the current month from the server clock. The model takes it as a parameter and uses the same value for the enforcer and the dashboard, so it does not cover a request that straddles a month boundary.
- Input typing. A request whose `cost` is missing or not a number is not modelled; `cost` is always a number here. Cost signs are not checked by the endpoint either.
- Floating point. Money is exact `real` arithmetic, and the card's percentage is exact apart from the division-by-zero cases. The `toFixed` formatting of the alert text and the card is not modelled. The alert message is kept as the two amounts it reports.
- The listing's `alerts` relation (the five most recent alerts per agent) is not part of `Agents.AgentView`. It is a query detail that no property here depends on.
- `AgentCard.ComputeHash` keeps the hash as an unbounded integer. JavaScript holds it in a double, which is exact for any name shorter than about four million code units.
- Idea ids, the random invited participant and the confirmation answer are inputs. Fresh ids are assumed only in the lemmas that need them.
- `Board.DeleteIdea` models the delete handler's own confirmation. The detail view asks first and then closes itself after calling the handler, even when the handler's confirmation is declined. That unconditional close is not modelled.
- The zod URL and email validators are not modelled. The form's length gates and the at-least-one-project rule are. `nextStep` is an optional string copied as given.
- `committedAt` is a timestamp parameter, not an ISO string. The card's days-committed label is not modelled.
- `Board.ChangeStatus` uses one time for the list and the open idea. The board reads the clock separately for each, so the two commitment times can differ slightly.
- Browser and network effects are not modelled: toasts, the confetti canvas, dialog open/close state, Formspree, localStorage, the profile form and the avatar upload.
- The agent reset endpoint, the agent update endpoint, the list endpoints for actions and alerts, the seed script, the simulation loop and all markup-only components are outside the modelled core.

=== FILE: actions.dfy ===
/**
 * The action-logging endpoint: the ordered checks (unknown agent, paused
 * agent, per-action limit, monthly budget) and the two ways it writes to the
 * store, as one pure transition per request.
 */
module Actions {
  import opened Options
  import opened Ledger

  /** The JSON body of a submitted action. */
  datatype ActionRequest = ActionRequest(
    agentId: string,
    actionType: string,
    target: string,
    cost: Money,
    outcome: string,
    metadata: Option<string>)

  /**
   * What the handler takes from its runtime: the first instant of the current
   * month and the current time (both from the server clock), and the ids the
   * database assigns to a new log or alert.
   */
  datatype Env = Env(monthStart: Timestamp, now: Timestamp, logId: string, alertId: string)

  datatype Response =
    | Created(log: ActionLog)
    | NotFound
    | Paused
    | OverActionLimit(limit: Money)
    | BudgetExceeded

  /** The HTTP status of each response. */
  function HttpStatus(r: Response): int {
    match r
    case Created(_) => 201
    case NotFound => 404
    case Paused => 403
    case OverActionLimit(_) => 400
    case BudgetExceeded => 403
  }

  datatype Step = Step(store: Store, response: Response)

  /** `metadata || null`: an absent or empty metadata string is stored as null. */
  function StoredMetadata(m: Option<string>): (r: Option<string>)
    ensures r.Some? <==> m.Some? && m.value != ""
    ensures r.Some? ==> r == m
  {
    if m.Some? && m.value != "" then m else None
  }

  /** The agent table after the update that sets status `paused` on the agent with the id. */
  function PauseAgent(agents: seq<Agent>, id: string): seq<Agent> {
    seq(|agents|, i requires 0 <= i < |agents| =>
      if agents[i].id == id then agents[i].(status := PAUSED) else agents[i])
  }

  /** The spend the request would bring the agent's month to. */
  function AttemptedSpend(s: Store, req: ActionRequest, env: Env): Money {
    MonthSpend(s.logs, req.agentId, env.monthStart) + req.cost
  }

  /** Handles one submitted action against the store. */
  function SubmitAction(s: Store, req: ActionRequest, env: Env): (out: Step)
    // the checks, in order; the first that fails decides the response
    ensures out.response.NotFound? <==> !HasAgent(s.agents, req.agentId)
    ensures out.response.Paused? <==>
      FindAgent(s.agents, req.agentId).Some? && s.agents[FindAgent(s.agents, req.agentId).value].status == PAUSED
    ensures out.response.OverActionLimit? <==>
      FindAgent(s.agents, req.agentId).Some?
      && s.agents[FindAgent(s.agents, req.agentId).value].status != PAUSED
      && req.cost > s.agents[FindAgent(s.agents, req.agentId).value].perActionLimit
    ensures out.response.BudgetExceeded? <==>
      FindAgent(s.agents, req.agentId).Some?
      && s.agents[FindAgent(s.agents, req.agentId).value].status != PAUSED
      && req.cost <= s.agents[FindAgent(s.agents, req.agentId).value].perActionLimit
      && AttemptedSpend(s, req, env) > s.agents[FindAgent(s.agents, req.agentId).value].monthlyBudget
    ensures out.response.Created? <==>
      FindAgent(s.agents, req.agentId).Some?
      && s.agents[FindAgent(s.agents, req.agentId).value].status != PAUSED
      && req.cost <= s.agents[FindAgent(s.agents, req.agentId).value].perActionLimit
      && AttemptedSpend(s, req, env) <= s.agents[FindAgent(s.agents, req.agentId).value].monthlyBudget
    // the HTTP status of each outcome
    ensures HttpStatus(out.response) == 404 <==> !HasAgent(s.agents, req.agentId)
    ensures HttpStatus(out.response) == 400 <==>
      FindAgent(s.agents, req.agentId).Some?
      && s.agents[FindAgent(s.agents, req.agentId).value].status != PAUSED
      && req.cost > s.agents[FindAgent(s.agents, req.agentId).value].perActionLimit
    ensures HttpStatus(out.response) == 403 <==>
      FindAgent(s.agents, req.agentId).Some?
      && (s.agents[FindAgent(s.agents, req.agentId).value].status == PAUSED
          || (req.cost <= s.agents[FindAgent(s.agents, req.agentId).value].perActionLimit
              && AttemptedSpend(s, req, env) > s.agents[FindAgent(s.agents, req.agentId).value].monthlyBudget))
    ensures HttpStatus(out.response) == 201 <==> out.store.logs != s.logs
    ensures out.response.OverActionLimit? ==>
      out.response.limit == s.agents[FindAgent(s.agents, req.agentId).value].perActionLimit
    // the three early rejections write nothing
    ensures out.response.NotFound? || out.response.Paused? || out.response.OverActionLimit? ==> out.store == s
    // over budget: the agent is paused and one alert is written, in one step; nothing is logged
    ensures out.response.BudgetExceeded? ==>
      && out.store.logs == s.logs
      && |out.store.agents| == |s.agents|
      && (forall i :: 0 <= i < |s.agents| ==>
            out.store.agents[i] == s.agents[i].(status := if s.agents[i].id == req.agentId then PAUSED else s.agents[i].status))
      && |out.store.alerts| == |s.alerts| + 1
      && out.store.alerts[..|s.alerts|] == s.alerts
      && out.store.alerts[|s.alerts|] == Alert(env.alertId, req.agentId, BUDGET_EXCEEDED,
           BudgetExceededMessage(s.agents[FindAgent(s.agents, req.agentId).value].monthlyBudget, AttemptedSpend(s, req, env)),
           env.now)
    // accepted: exactly one log, copied from the request; agents and alerts untouched
    ensures out.response.Created? ==>
      && out.store.agents == s.agents
      && out.store.alerts == s.alerts
      && out.store.logs == s.logs + [out.response.log]
      && out.response.log == ActionLog(env.logId, req.agentId, req.actionType, req.target, req.cost,
                                       req.outcome, StoredMetadata(req.metadata), env.now)
  {
    match FindAgent(s.agents, req.agentId)
    case None => Step(s, NotFound)
    case Some(i) =>
      var agent := s.agents[i];
      if agent.status == PAUSED then Step(s, Paused)
      else if req.cost > agent.perActionLimit then Step(s, OverActionLimit(agent.perActionLimit))
      else
        var total := MonthSpend(s.logs, req.agentId, env.monthStart) + req.cost;
        if total > agent.monthlyBudget then
          var alert := Alert(env.alertId, agent.id, BUDGET_EXCEEDED,
                             BudgetExceededMessage(agent.monthlyBudget, total), env.now);
          Step(Store(PauseAgent(s.agents, agent.id), s.logs, s.alerts + [alert]), BudgetExceeded)
        else
          var log := ActionLog(env.logId, req.agentId, req.actionType, req.target, req.cost,
                               req.outcome, StoredMetadata(req.metadata), env.now);
          Step(Store(s.agents, s.logs + [log], s.alerts), Created(log))
  }

  /** One request with the runtime values it was handled with. */
  datatype Submission = Submission(request: ActionRequest, env: Env)

  /** Requests handled one after another. */
  function Replay(s: Store, subs: seq<Submission>): Store
    decreases |subs|
  {
    if subs == [] then s
    else Replay(SubmitAction(s, subs[0].request, subs[0].env).store, subs[1..])
  }

  /** Every agent's spend in the month starting at `monthStart` is within its budget. */
  predicate WithinBudget(s: Store, monthStart: Timestamp) {
    forall i :: 0 <= i < |s.agents| ==> MonthSpend(s.logs, s.agents[i].id, monthStart) <= s.agents[i].monthlyBudget
  }

  /**
   * The pause and the alert go together: a request changes some agent's status
   * exactly when it adds an alert, and the alert names that agent.
   */
  lemma PauseAndAlertAtomic(s: Store, req: ActionRequest, env: Env)
    ensures var t := SubmitAction(s, req, env).store;
      |t.agents| == |s.agents|
      && ((exists i :: 0 <= i < |s.agents| && t.agents[i].status != s.agents[i].status)
          <==> |t.alerts| == |s.alerts| + 1)
    ensures var t := SubmitAction(s, req, env).store;
      |t.alerts| == |s.alerts| || |t.alerts| == |s.alerts| + 1
    ensures var t := SubmitAction(s, req, env).store;
      |t.alerts| == |s.alerts| + 1 ==>
        forall i :: 0 <= i < |s.agents| && s.agents[i].id == t.alerts[|s.alerts|].agentId ==> t.agents[i].status == PAUSED
  {
    var out := SubmitAction(s, req, env);
    if out.response.BudgetExceeded? {
      var i := FindAgent(s.agents, req.agentId).value;
      assert out.store.agents[i].status != s.agents[i].status;
    }
  }

  /** Pausing is the only status change the handler makes, so a paused agent stays paused. */
  lemma StepKeepsPaused(s: Store, req: ActionRequest, env: Env)
    ensures var t := SubmitAction(s, req, env).store;
      && |t.agents| == |s.agents|
      && (forall i :: 0 <= i < |s.agents| ==>
            t.agents[i].status == s.agents[i].status || t.agents[i].status == PAUSED)
      && (forall i :: 0 <= i < |s.agents| ==> t.agents[i] == s.agents[i].(status := t.agents[i].status))
  {
  }

  /** Over any run of action submissions a paused agent stays paused and no other field of any agent changes. */
  lemma {:induction false} PausedIsAbsorbing(s: Store, subs: seq<Submission>)
    ensures var t := Replay(s, subs);
      && |t.agents| == |s.agents|
      && (forall i :: 0 <= i < |s.agents| && s.agents[i].status == PAUSED ==> t.agents[i].status == PAUSED)
      && (forall i :: 0 <= i < |s.agents| ==>
            t.agents[i].status == s.agents[i].status || t.agents[i].status == PAUSED)
      && (forall i :: 0 <= i < |s.agents| ==> t.agents[i] == s.agents[i].(status := t.agents[i].status))
    decreases |subs|
  {
    if subs != [] {
      var next := SubmitAction(s, subs[0].request, subs[0].env).store;
      StepKeepsPaused(s, subs[0].request, subs[0].env);
      PausedIsAbsorbing(next, subs[1..]);
    }
  }

  /** Handling a request keeps the database's own guarantees. */
  lemma StepKeepsValid(s: Store, req: ActionRequest, env: Env)
    requires Valid(s)
    ensures Valid(SubmitAction(s, req, env).store)
  {
    var out := SubmitAction(s, req, env);
    var t := out.store;
    forall id | HasAgent(s.agents, id)
      ensures HasAgent(t.agents, id)
    {
      var i :| 0 <= i < |s.agents| && s.agents[i].id == id;
      assert t.agents[i].id == id;
    }
  }

  /**
   * Handled one at a time, requests that share a month keep every agent's spend
   * in that month within its budget: an accepted action is logged only when the
   * total stays at or below the budget, and a rejection logs nothing.
   */
  lemma StepKeepsWithinBudget(s: Store, req: ActionRequest, env: Env)
    requires UniqueIds(s.agents)
    requires WithinBudget(s, env.monthStart)
    ensures WithinBudget(SubmitAction(s, req, env).store, env.monthStart)
  {
    var out := SubmitAction(s, req, env);
    var t := out.store;
    var ms := env.monthStart;
    if out.response.Created? {
      forall i | 0 <= i < |t.agents|
        ensures MonthSpend(t.logs, t.agents[i].id, ms) <= t.agents[i].monthlyBudget
      {
        var a := s.agents[i];
        MonthSpendAppend(s.logs, out.response.log, a.id, ms);
        if a.id == req.agentId {
          FindUnique(s.agents, i);
        }
      }
    }
  }

  lemma {:induction false} ReplayKeepsWithinBudget(s: Store, subs: seq<Submission>, monthStart: Timestamp)
    requires UniqueIds(s.agents)
    requires WithinBudget(s, monthStart)
    requires forall k :: 0 <= k < |subs| ==> subs[k].env.monthStart == monthStart
    ensures WithinBudget(Replay(s, subs), monthStart)
    ensures UniqueIds(Replay(s, subs).agents)
    decreases |subs|
  {
    if subs != [] {
      var next := SubmitAction(s, subs[0].request, subs[0].env).store;
      StepKeepsWithinBudget(s, subs[0].request, subs[0].env);
      StepKeepsPaused(s, subs[0].request, subs[0].env);
      assert UniqueIds(next.agents);
      ReplayKeepsWithinBudget(next, subs[1..], monthStart);
    }
  }

  /**
   * A worked case: budget 25, per-action limit 5, 21 already spent this month.
   * A cost of 3 (total 24) is logged; a further cost of 4 (total 28) pauses the
   * agent and writes one alert reporting 25 and 28, and logs nothing.
   */
  lemma BudgetScenario()
    ensures
      var agent := Agent("a1", "Scout", "research", "owner", ACTIVE, 25.0, 5.0, 0);
      var prior := ActionLog("l0", "a1", "search", "web", 21.0, "success", None, 100);
      var s0 := Store([agent], [prior], []);
      var first := SubmitAction(s0, ActionRequest("a1", "search", "web", 3.0, "success", None), Env(50, 200, "l1", "x1"));
      var second := SubmitAction(first.store, ActionRequest("a1", "search", "web", 4.0, "success", None), Env(50, 300, "l2", "x2"));
      && first.response.Created?
      && first.store.agents == [agent]
      && |first.store.logs| == 2
      && second.response == BudgetExceeded
      && second.store.agents == [agent.(status := PAUSED)]
      && second.store.logs == first.store.logs
      && second.store.alerts == [Alert("x2", "a1", BUDGET_EXCEEDED, BudgetExceededMessage(25.0, 28.0), 300)]
  {
    var agent := Agent("a1", "Scout", "research", "owner", ACTIVE, 25.0, 5.0, 0);
    var prior := ActionLog("l0", "a1", "search", "web", 21.0, "success", None, 100);
    var s0 := Store([agent], [prior], []);
    assert MonthSpend(s0.logs, "a1", 50) == 21.0 by {
      assert s0.logs[..0] == [];
    }
    var first := SubmitAction(s0, ActionRequest("a1", "search", "web", 3.0, "success", None), Env(50, 200, "l1", "x1"));
    assert first.response.Created?;
    MonthSpendAppend(s0.logs, first.response.log, "a1", 50);
    assert MonthSpend(first.store.logs, "a1", 50) == 24.0;
  }
}

=== FILE: agent_card.dfy ===
/**
 * The agent card's pure helpers: the avatar URL derived from a string hash of
 * the agent's name, and the budget-usage classification that colours the card.
 */
module AgentCard {
  import opened Options
  import opened Text
  import Ledger

  const TWO32: int := 0x1_0000_0000
  const TWO31: int := 0x8000_0000

  /** ECMAScript ToInt32: wraps an integer into the signed 32-bit range. */
  function ToInt32(x: int): (r: int)
    ensures -TWO31 <= r < TWO31
    ensures (r - x) % TWO32 == 0
  {
    (x + TWO31) % TWO32 - TWO31
  }

  /** `h << 5`: both the operand and the result are wrapped to 32 bits. */
  function ShiftLeft5(h: int): (r: int)
    ensures -TWO31 <= r < TWO31
  {
    ToInt32(ToInt32(h) * 32)
  }

  /** One loop step: `hash = charCode + ((hash << 5) - hash)`, the outer arithmetic in unbounded integers. */
  function HashStep(h: int, c: CodeUnit): int {
    c + (ShiftLeft5(h) - h)
  }

  /** The hash after the loop has consumed the given code units, starting from 0. */
  function NameHash(units: seq<CodeUnit>): int
    decreases |units|
  {
    if units == [] then 0
    else HashStep(NameHash(units[..|units| - 1]), units[|units| - 1])
  }

  /**
   * The 32-bit view of the hash, defined independently: the multiplier-31
   * string hash (`h * 31 + c`) kept in signed 32-bit range after every step.
   */
  function Int32Hash(units: seq<CodeUnit>): (r: int)
    ensures -TWO31 <= r < TWO31
    decreases |units|
  {
    if units == [] then 0
    else ToInt32(31 * Int32Hash(units[..|units| - 1]) + units[|units| - 1])
  }

  /** ToInt32 as the input plus a multiple of 2^32. */
  lemma ToInt32Wrap(x: int) returns (k: int)
    ensures ToInt32(x) == x + k * 0x1_0000_0000
  {
    k := -((x + 0x8000_0000) / 0x1_0000_0000);
  }

  /** ToInt32 ignores multiples of 2^32. */
  lemma ToInt32Periodic(y: int, k: int)
    ensures ToInt32(y + k * 0x1_0000_0000) == ToInt32(y)
  {
    var a := ToInt32Wrap(y + k * 0x1_0000_0000);
    var b := ToInt32Wrap(y);
    var d := ToInt32(y + k * 0x1_0000_0000) - ToInt32(y);
    assert d == (a + k - b) * 0x1_0000_0000;
    assert -0x1_0000_0000 < d < 0x1_0000_0000;
  }

  /** `(hash << 5) - hash` multiplies by 31 modulo 2^32: the 32-bit view of the loop's hash is the multiplier-31 hash. */
  lemma {:induction false} HashIsMultiplier31(units: seq<CodeUnit>)
    ensures ToInt32(NameHash(units)) == Int32Hash(units)
    decreases |units|
  {
    if units != [] {
      var init := units[..|units| - 1];
      var c := units[|units| - 1];
      var h := NameHash(init);
      HashIsMultiplier31(init);
      var t := ToInt32(h);
      var a := ToInt32Wrap(h);
      var b := ToInt32Wrap(t * 32);
      assert NameHash(units) == c + 31 * t + (a + b) * 0x1_0000_0000;
      ToInt32Periodic(c + 31 * t, a + b);
    }
  }

  /** The loop of `getAvatarUrl`: its hash, wrapped to 32 bits, is the multiplier-31 hash. */
  method ComputeHash(units: seq<CodeUnit>) returns (hash: int)
    ensures ToInt32(hash) == Int32Hash(units)
    ensures hash == NameHash(units)
  {
    hash := 0;
    var i := 0;
    while i < |units|
      invariant 0 <= i <= |units|
      invariant hash == NameHash(units[..i])
    {
      assert units[..i + 1][..i] == units[..i];
      hash := HashStep(hash, units[i]);
      i := i + 1;
    }
    assert units[..i] == units;
    HashIsMultiplier31(units);
  }

  function Abs(x: int): nat {
    if x < 0 then -x else x
  }

  /** `Math.abs(hash) % 70 + 1`, over the name's UTF-16 code units. */
  function AvatarSeed(name: string): (seed: int)
    ensures 1 <= seed <= 70
    ensures name == "" ==> seed == 1
  {
    Abs(NameHash(Utf16(name))) % 70 + 1
  }

  const AVATAR_PREFIX: string := "https://i.pravatar.cc/150?img="

  function AvatarUrl(name: string): (url: string)
    ensures |url| > |AVATAR_PREFIX| && url[..|AVATAR_PREFIX|] == AVATAR_PREFIX
  {
    AVATAR_PREFIX + Decimal(AvatarSeed(name))
  }

  /** Reads the seed back out of an avatar URL (digits without a leading zero); None for anything else. */
  function SeedOfUrl(url: string): Option<nat> {
    if |url| > |AVATAR_PREFIX| && url[..|AVATAR_PREFIX|] == AVATAR_PREFIX && AllDigits(url[|AVATAR_PREFIX|..])
       && (|url| == |AVATAR_PREFIX| + 1 || url[|AVATAR_PREFIX|] != '0')
    then Some(ParseDecimal(url[|AVATAR_PREFIX|..]))
    else None
  }

  /** The URL is the fixed prefix followed by the seed in decimal and nothing else. */
  lemma AvatarUrlCarriesSeed(name: string)
    ensures SeedOfUrl(AvatarUrl(name)) == Some(AvatarSeed(name))
  {
    var d := Decimal(AvatarSeed(name));
    assert AvatarUrl(name)[|AVATAR_PREFIX|..] == d;
    DecimalRoundTrip(AvatarSeed(name));
  }

  /**
   * The usage percentage `monthlySpend / monthlyBudget * 100` as a JavaScript
   * number: a zero budget gives an infinity or, for zero spend, NaN.
   */
  datatype Pct = Finite(value: real) | PosInf | NegInf | NaN

  function BudgetPercentage(spend: real, budget: real): (p: Pct)
    ensures budget != 0.0 ==> p == Finite(spend / budget * 100.0)
    ensures budget == 0.0 ==> (p.NaN? <==> spend == 0.0) && (p.PosInf? <==> spend > 0.0) && (p.NegInf? <==> spend < 0.0)
  {
    if budget != 0.0 then Finite(spend / budget * 100.0)
    else if spend > 0.0 then PosInf
    else if spend < 0.0 then NegInf
    else NaN
  }

  /** `p >= bound` on JavaScript numbers: false for NaN. */
  predicate AtLeast(p: Pct, bound: real) {
    match p
    case Finite(v) => v >= bound
    case PosInf => true
    case NegInf => false
    case NaN => false
  }

  predicate IsOverBudget(p: Pct) {
    AtLeast(p, 100.0)
  }

  predicate IsWarning(p: Pct) {
    AtLeast(p, 80.0)
  }

  /** The colour the spend text and the progress bar take. */
  datatype Level = Over | Warning | Normal

  /** `isOverBudget ? red : isWarning ? yellow : green/grey`. */
  function UsageLevel(p: Pct): (l: Level)
    ensures l == Over <==> AtLeast(p, 100.0)
    ensures l == Warning <==> AtLeast(p, 80.0) && !AtLeast(p, 100.0)
    ensures l == Normal <==> !AtLeast(p, 80.0)
  {
    if IsOverBudget(p) then Over else if IsWarning(p) then Warning else Normal
  }

  /** Over budget always also counts as a warning. */
  lemma OverBudgetIsWarning(p: Pct)
    ensures IsOverBudget(p) ==> IsWarning(p)
  {
  }

  /** `Math.min(p, 100)`, the progress-bar width: NaN stays NaN. */
  function BarWidth(p: Pct): (w: Pct)
    ensures p.NaN? <==> w.NaN?
    ensures w.Finite? ==> w.value <= 100.0
    ensures !w.PosInf?
    ensures p.NegInf? ==> w.NegInf?
    ensures p.Finite? && p.value <= 100.0 ==> w == p
    ensures AtLeast(p, 100.0) ==> w == Finite(100.0)
  {
    match p
    case Finite(v) => Finite(if v < 100.0 then v else 100.0)
    case PosInf => Finite(100.0)
    case NegInf => NegInf
    case NaN => NaN
  }

  /** The card's status label: "Running" only for the exact status `active`. */
  function StatusLabel(status: string): (shown: string)
    ensures shown == "Running" <==> status == Ledger.ACTIVE
    ensures shown == "Stopped" <==> status != Ledger.ACTIVE
  {
    if status == Ledger.ACTIVE then "Running" else "Stopped"
  }
}

=== FILE: agents.dfy ===
/**
 * The agents endpoint: the dashboard listing, which attaches each agent's
 * current-month actions, spend and remaining budget, and agent creation.
 */
module Agents {
  import opened Options
  import opened Ledger
  import Actions

  /** An agent as the listing returns it: every stored field plus the computed ones. */
  datatype AgentView = AgentView(agent: Agent, actions: seq<ActionLog>, monthlySpend: Money, budgetRemaining: Money)

  /** The agent's actions dated in the month, in store order (the relation filter of the listing query). */
  function MonthActions(logs: seq<ActionLog>, agentId: string, monthStart: Timestamp): (r: seq<ActionLog>)
    ensures |r| <= |logs|
    ensures forall k :: 0 <= k < |r| ==> r[k] in logs && InWindow(r[k], agentId, monthStart)
    ensures forall k :: 0 <= k < |logs| && InWindow(logs[k], agentId, monthStart) ==> logs[k] in r
    ensures forall x :: multiset(r)[x] == if InWindow(x, agentId, monthStart) then multiset(logs)[x] else 0
    decreases |logs|
  {
    if logs == [] then []
    else
      var last := logs[|logs| - 1];
      assert logs == logs[..|logs| - 1] + [last];
      MonthActions(logs[..|logs| - 1], agentId, monthStart) + (if InWindow(last, agentId, monthStart) then [last] else [])
  }

  /** `actions.reduce((sum, a) => sum + a.cost, acc)`: a left fold over the costs. */
  function ReduceCosts(acc: Money, actions: seq<ActionLog>): Money
    decreases |actions|
  {
    if actions == [] then acc else ReduceCosts(acc + actions[0].cost, actions[1..])
  }

  lemma {:induction false} ReduceCostsSnoc(acc: Money, actions: seq<ActionLog>, a: ActionLog)
    ensures ReduceCosts(acc, actions + [a]) == ReduceCosts(acc, actions) + a.cost
    decreases |actions|
  {
    if actions == [] {
      assert ReduceCosts(acc, [a]) == ReduceCosts(acc + a.cost, []);
    } else {
      assert (actions + [a])[1..] == actions[1..] + [a];
      ReduceCostsSnoc(acc + actions[0].cost, actions[1..], a);
    }
  }

  /**
   * The spend the dashboard shows (a fold over the fetched month actions) is the
   * spend the enforcer checks (the aggregate over the log).
   */
  lemma {:induction false} DisplayedSpendIsEnforcedSpend(logs: seq<ActionLog>, agentId: string, monthStart: Timestamp)
    ensures ReduceCosts(0.0, MonthActions(logs, agentId, monthStart)) == MonthSpend(logs, agentId, monthStart)
    decreases |logs|
  {
    if logs != [] {
      var init := logs[..|logs| - 1];
      var last := logs[|logs| - 1];
      DisplayedSpendIsEnforcedSpend(init, agentId, monthStart);
      if InWindow(last, agentId, monthStart) {
        ReduceCostsSnoc(0.0, MonthActions(init, agentId, monthStart), last);
      } else {
        assert MonthActions(logs, agentId, monthStart) == MonthActions(init, agentId, monthStart);
      }
    }
  }

  /** One listed agent: its fields unchanged, plus the month's actions, spend and budget remaining. */
  function Enrich(s: Store, a: Agent, monthStart: Timestamp): (v: AgentView)
    ensures v.agent == a
    ensures v.monthlySpend == MonthSpend(s.logs, a.id, monthStart)
    ensures v.budgetRemaining + v.monthlySpend == a.monthlyBudget
    ensures v.budgetRemaining < 0.0 <==> v.monthlySpend > a.monthlyBudget
    ensures forall k :: 0 <= k < |v.actions| ==> v.actions[k] in s.logs && InWindow(v.actions[k], a.id, monthStart)
  {
    var actions := MonthActions(s.logs, a.id, monthStart);
    var spend := ReduceCosts(0.0, actions);
    DisplayedSpendIsEnforcedSpend(s.logs, a.id, monthStart);
    AgentView(a, actions, spend, a.monthlyBudget - spend)
  }

  predicate NewestFirst(agents: seq<Agent>) {
    forall i, j :: 0 <= i < j < |agents| ==> agents[i].createdAt >= agents[j].createdAt
  }

  /** Places an agent into a newest-first list. */
  function InsertByCreated(a: Agent, sorted: seq<Agent>): (r: seq<Agent>)
    requires NewestFirst(sorted)
    ensures NewestFirst(r)
    ensures multiset(r) == multiset(sorted) + multiset{a}
    ensures |r| == |sorted| + 1
    ensures r[0] == a || (sorted != [] && r[0] == sorted[0])
    decreases |sorted|
  {
    if sorted == [] || a.createdAt >= sorted[0].createdAt then [a] + sorted
    else
      assert sorted == [sorted[0]] + sorted[1..];
      [sorted[0]] + InsertByCreated(a, sorted[1..])
  }

  /** `orderBy: { createdAt: 'desc' }`: the agents newest first. */
  function SortNewestFirst(agents: seq<Agent>): (r: seq<Agent>)
    ensures NewestFirst(r)
    ensures multiset(r) == multiset(agents)
    ensures |r| == |agents|
    decreases |agents|
  {
    if agents == [] then []
    else
      assert agents == [agents[0]] + agents[1..];
      InsertByCreated(agents[0], SortNewestFirst(agents[1..]))
  }

  function AgentsOf(views: seq<AgentView>): seq<Agent> {
    seq(|views|, i requires 0 <= i < |views| => views[i].agent)
  }

  /** The dashboard listing: every agent once, newest first, each with its month's spend. */
  function ListAgents(s: Store, monthStart: Timestamp): (r: seq<AgentView>)
    ensures |r| == |s.agents|
    ensures multiset(AgentsOf(r)) == multiset(s.agents)
    ensures NewestFirst(AgentsOf(r))
    ensures forall i :: 0 <= i < |r| ==>
      && r[i].monthlySpend == MonthSpend(s.logs, r[i].agent.id, monthStart)
      && r[i].budgetRemaining == r[i].agent.monthlyBudget - r[i].monthlySpend
  {
    var sorted := SortNewestFirst(s.agents);
    var r := seq(|sorted|, i requires 0 <= i < |sorted| => Enrich(s, sorted[i], monthStart));
    assert AgentsOf(r) == sorted;
    r
  }

  /** The JSON body of an agent-creation request; `status` may be absent. */
  datatype NewAgent = NewAgent(
    name: string,
    role: string,
    ownerId: string,
    monthlyBudget: Money,
    perActionLimit: Money,
    status: Option<string>)

  datatype Creation = Creation(store: Store, agent: Agent)

  /** `body.status || 'active'`: any non-empty status is kept as given. */
  function InitialStatus(status: Option<string>): (r: string)
    ensures status.Some? && status.value != "" ==> r == status.value
    ensures status.None? || status.value == "" ==> r == ACTIVE
  {
    if status.Some? && status.value != "" then status.value else ACTIVE
  }

  /**
   * Creates an agent from the request body, with the id and timestamp the
   * database assigns. No field is validated: a per-action limit above the
   * budget, or any status text, is stored as given.
   */
  function CreateAgent(s: Store, body: NewAgent, newId: string, now: Timestamp): (r: Creation)
    ensures r.agent.id == newId && r.agent.createdAt == now
    ensures r.agent.name == body.name && r.agent.role == body.role && r.agent.ownerId == body.ownerId
    ensures r.agent.monthlyBudget == body.monthlyBudget && r.agent.perActionLimit == body.perActionLimit
    ensures r.agent.status == InitialStatus(body.status)
    ensures r.store.agents == s.agents + [r.agent]
    ensures r.store.logs == s.logs && r.store.alerts == s.alerts
  {
    var a := Agent(newId, body.name, body.role, body.ownerId, InitialStatus(body.status),
                   body.monthlyBudget, body.perActionLimit, now);
    Creation(Store(s.agents + [a], s.logs, s.alerts), a)
  }

  /**
   * Creating an agent with a fresh id keeps the store valid, and a new agent
   * starts with no spend: its remaining budget is its whole budget.
   */
  lemma CreateKeepsValid(s: Store, body: NewAgent, newId: string, now: Timestamp, monthStart: Timestamp)
    requires Valid(s)
    requires !HasAgent(s.agents, newId)
    ensures Valid(CreateAgent(s, body, newId, now).store)
    ensures var r := CreateAgent(s, body, newId, now);
      Enrich(r.store, r.agent, monthStart).monthlySpend == 0.0
      && Enrich(r.store, r.agent, monthStart).budgetRemaining == body.monthlyBudget
  {
    var r := CreateAgent(s, body, newId, now);
    forall id | HasAgent(s.agents, id)
      ensures HasAgent(r.store.agents, id)
    {
      var i :| 0 <= i < |s.agents| && s.agents[i].id == id;
      assert r.store.agents[i].id == id;
    }
    assert forall k :: 0 <= k < |s.logs| ==> s.logs[k].agentId != newId;
  }

  /**
   * Agent creation keeps every agent within its month budget when the new
   * budget is not negative; the endpoint does not check this, so a negative
   * budget starts the agent over budget.
   */
  lemma CreateKeepsWithinBudget(s: Store, body: NewAgent, newId: string, now: Timestamp, monthStart: Timestamp)
    requires Valid(s)
    requires !HasAgent(s.agents, newId)
    requires Actions.WithinBudget(s, monthStart)
    ensures body.monthlyBudget >= 0.0 <==> Actions.WithinBudget(CreateAgent(s, body, newId, now).store, monthStart)
  {
    var t := CreateAgent(s, body, newId, now).store;
    assert forall k :: 0 <= k < |s.logs| ==> s.logs[k].agentId != newId;
    assert MonthSpend(t.logs, newId, monthStart) == 0.0;
    assert t.agents[|s.agents|].id == newId;
  }
}

=== FILE: board.dfy ===
/**
 * The idea board: the list updates behind the board's handlers (add, status
 * change, delete, invite) and the committed/considering columns.
 */
module Board {
  import opened Options
  import opened Seqs
  import opened Text

  /** Milliseconds since the epoch. */
  type Timestamp = int

  datatype IdeaStatus = Considering | Committed

  datatype Participant = Participant(id: string, name: string, avatar: string)

  /** `committedAt` is the commitment time; the board stores it as an ISO string. */
  datatype Idea = Idea(
    id: string,
    title: string,
    description: string,
    status: IdeaStatus,
    nextStep: Option<string>,
    link: Option<string>,
    participants: Option<seq<Participant>>,
    committedAt: Option<Timestamp>)

  /** The board's state: the idea list and the idea open in the detail view. */
  datatype BoardState = BoardState(ideas: seq<Idea>, selected: Option<Idea>)

  predicate IsCommitted(i: Idea) {
    i.status == Committed
  }

  predicate IsConsidering(i: Idea) {
    i.status == Considering
  }

  function CommittedIdeas(ideas: seq<Idea>): seq<Idea> {
    Filter(ideas, IsCommitted)
  }

  function ConsideringIdeas(ideas: seq<Idea>): seq<Idea> {
    Filter(ideas, IsConsidering)
  }

  /** The two columns split the list: every idea is in exactly one, counts add up, order is kept. */
  lemma ColumnsPartition(ideas: seq<Idea>)
    ensures |CommittedIdeas(ideas)| + |ConsideringIdeas(ideas)| == |ideas|
    ensures multiset(CommittedIdeas(ideas)) + multiset(ConsideringIdeas(ideas)) == multiset(ideas)
    ensures forall k :: 0 <= k < |ideas| ==>
      (ideas[k] in CommittedIdeas(ideas) <==> ideas[k] !in ConsideringIdeas(ideas))
  {
    FilterComplement(ideas, IsCommitted, IsConsidering);
  }

  predicate UniqueIdeaIds(ideas: seq<Idea>) {
    forall i, j :: 0 <= i < j < |ideas| ==> ideas[i].id != ideas[j].id
  }

  /** `ideas.find(i => i.id === id)`. */
  function FindIdea(ideas: seq<Idea>, id: string): (r: Option<Idea>)
    ensures r.Some? ==> r.value in ideas && r.value.id == id
    ensures r.None? <==> forall k :: 0 <= k < |ideas| ==> ideas[k].id != id
    ensures r.Some? ==> exists k :: 0 <= k < |ideas| && ideas[k] == r.value
                          && forall j :: 0 <= j < k ==> ideas[j].id != id
    decreases |ideas|
  {
    if ideas == [] then None
    else if ideas[0].id == id then Some(ideas[0])
    else
      var r := FindIdea(ideas[1..], id);
      assert r.Some? ==> exists k :: 0 <= k < |ideas[1..]| && ideas[1..][k] == r.value
                          && forall j :: 0 <= j < k ==> ideas[1..][j].id != id;
      r
  }

  // ----- adding an idea -----

  /** The add-idea form's values; an empty link field is the empty string. */
  datatype IdeaForm = IdeaForm(title: string, description: string, nextStep: Option<string>, link: string)

  /** The form's length gates: title at least 2 and description at least 5 UTF-16 code units. */
  predicate FormAccepts(form: IdeaForm) {
    JsLength(form.title) >= 2 && JsLength(form.description) >= 5
  }

  function NewIdea(form: IdeaForm, newId: string): Idea {
    Idea(newId, form.title, form.description, Considering, form.nextStep,
         if form.link == "" then None else Some(form.link), Some([]), None)
  }

  /** Submitting the form: None when the length gates reject it, else the list with the idea appended. */
  function SubmitIdea(ideas: seq<Idea>, form: IdeaForm, newId: string): (r: Option<seq<Idea>>)
    ensures r.Some? <==> FormAccepts(form)
    ensures r.Some? ==>
      && |r.value| == |ideas| + 1
      && r.value[..|ideas|] == ideas
      && r.value[|ideas|].id == newId
      && r.value[|ideas|].title == form.title
      && r.value[|ideas|].description == form.description
      && r.value[|ideas|].nextStep == form.nextStep
      && r.value[|ideas|].status == Considering
      && r.value[|ideas|].participants == Some([])
      && r.value[|ideas|].committedAt.None?
      && (r.value[|ideas|].link.None? <==> form.link == "")
      && (r.value[|ideas|].link.Some? ==> r.value[|ideas|].link.value == form.link)
  {
    if FormAccepts(form) then
      var r := ideas + [NewIdea(form, newId)];
      assert r[..|ideas|] == ideas;
      Some(r)
    else None
  }

  /** A new idea joins the end of the considering column; the committed column is unchanged. */
  lemma SubmitIdeaColumns(ideas: seq<Idea>, form: IdeaForm, newId: string)
    requires FormAccepts(form)
    ensures CommittedIdeas(SubmitIdea(ideas, form, newId).value) == CommittedIdeas(ideas)
    ensures ConsideringIdeas(SubmitIdea(ideas, form, newId).value) == ConsideringIdeas(ideas) + [NewIdea(form, newId)]
  {
    var n := NewIdea(form, newId);
    FilterAppend(ideas, [n], IsCommitted);
    FilterAppend(ideas, [n], IsConsidering);
  }

  /** With a fresh id, ids stay unique. */
  lemma SubmitIdeaKeepsIdsUnique(ideas: seq<Idea>, form: IdeaForm, newId: string)
    requires UniqueIdeaIds(ideas)
    requires forall k :: 0 <= k < |ideas| ==> ideas[k].id != newId
    requires FormAccepts(form)
    ensures UniqueIdeaIds(SubmitIdea(ideas, form, newId).value)
  {
  }

  // ----- changing status -----

  /** The idea moved to `status`, with a commitment time exactly when it is committed. */
  function WithStatus(i: Idea, status: IdeaStatus, now: Timestamp): Idea {
    i.(status := status, committedAt := if status == Committed then Some(now) else None)
  }

  /** The list after the status change of every idea with the id. */
  function SetStatus(ideas: seq<Idea>, id: string, status: IdeaStatus, now: Timestamp): (r: seq<Idea>)
    ensures |r| == |ideas|
    ensures forall k :: 0 <= k < |ideas| ==>
      r[k] == if ideas[k].id == id then WithStatus(ideas[k], status, now) else ideas[k]
    decreases |ideas|
  {
    if ideas == [] then []
    else [if ideas[0].id == id then WithStatus(ideas[0], status, now) else ideas[0]]
         + SetStatus(ideas[1..], id, status, now)
  }

  datatype StatusChange = StatusChange(board: BoardState, celebrate: bool)

  /**
   * The detail view's status toggle. The selected idea is updated whatever its
   * id, as the board does; the celebration fires only on a move from
   * considering to committed.
   */
  function ChangeStatus(b: BoardState, id: string, status: IdeaStatus, now: Timestamp): (r: StatusChange)
    ensures |r.board.ideas| == |b.ideas|
    ensures forall k :: 0 <= k < |b.ideas| && b.ideas[k].id != id ==> r.board.ideas[k] == b.ideas[k]
    ensures forall k :: 0 <= k < |b.ideas| && b.ideas[k].id == id ==>
      && r.board.ideas[k].status == status
      && (r.board.ideas[k].committedAt.Some? <==> status == Committed)
      && r.board.ideas[k] == b.ideas[k].(status := status, committedAt := r.board.ideas[k].committedAt)
    ensures r.board.selected.Some? <==> b.selected.Some?
    ensures b.selected.Some? ==> r.board.selected == Some(WithStatus(b.selected.value, status, now))
    ensures r.celebrate <==>
      FindIdea(b.ideas, id).Some? && FindIdea(b.ideas, id).value.status == Considering && status == Committed
  {
    var found := FindIdea(b.ideas, id);
    var wasConsidering := found.Some? && found.value.status == Considering;
    var selected := if b.selected.Some? then Some(WithStatus(b.selected.value, status, now)) else None;
    StatusChange(BoardState(SetStatus(b.ideas, id, status, now), selected), wasConsidering && status == Committed)
  }

  lemma {:induction false} SetStatusAbsent(ideas: seq<Idea>, id: string, status: IdeaStatus, now: Timestamp)
    requires forall k :: 0 <= k < |ideas| ==> ideas[k].id != id
    ensures SetStatus(ideas, id, status, now) == ideas
  {
  }

  lemma UniqueIdsTail(ideas: seq<Idea>)
    requires |ideas| > 0 && UniqueIdeaIds(ideas)
    ensures UniqueIdeaIds(ideas[1..])
    ensures forall k :: 0 <= k < |ideas| - 1 ==> ideas[1..][k].id != ideas[0].id
  {
    var tail := ideas[1..];
    forall i, j | 0 <= i < j < |tail|
      ensures tail[i].id != tail[j].id
    {
      assert tail[i] == ideas[i + 1] && tail[j] == ideas[j + 1];
    }
  }

  /** Committing a considered idea (ids unique) moves exactly one idea between the columns. */
  lemma {:induction false} CommitMovesOneIdea(ideas: seq<Idea>, id: string, now: Timestamp)
    requires UniqueIdeaIds(ideas)
    requires exists k :: 0 <= k < |ideas| && ideas[k].id == id && ideas[k].status == Considering
    ensures |CommittedIdeas(SetStatus(ideas, id, Committed, now))| == |CommittedIdeas(ideas)| + 1
    ensures |ConsideringIdeas(SetStatus(ideas, id, Committed, now))| + 1 == |ConsideringIdeas(ideas)|
    decreases |ideas|
  {
    var r := SetStatus(ideas, id, Committed, now);
    var rest := SetStatus(ideas[1..], id, Committed, now);
    assert r == [r[0]] + rest;
    assert |CommittedIdeas(ideas)| == (if IsCommitted(ideas[0]) then 1 else 0) + |CommittedIdeas(ideas[1..])|;
    assert |ConsideringIdeas(ideas)| == (if IsConsidering(ideas[0]) then 1 else 0) + |ConsideringIdeas(ideas[1..])|;
    assert |CommittedIdeas(r)| == (if IsCommitted(r[0]) then 1 else 0) + |CommittedIdeas(rest)|;
    assert |ConsideringIdeas(r)| == (if IsConsidering(r[0]) then 1 else 0) + |ConsideringIdeas(rest)|;
    if ideas[0].id == id {
      UniqueIdsTail(ideas);
      SetStatusAbsent(ideas[1..], id, Committed, now);
    } else {
      var k :| 0 <= k < |ideas| && ideas[k].id == id && ideas[k].status == Considering;
      var tail := ideas[1..];
      assert tail[k - 1] == ideas[k];
      UniqueIdsTail(ideas);
      CommitMovesOneIdea(tail, id, now);
    }
  }

  // ----- deleting -----

  /**
   * Deletion after the confirmation dialog: nothing happens without a matching
   * idea or without confirmation; otherwise every idea with the id goes, the
   * rest keep their order, and the detail view closes if it showed that idea.
   */
  function DeleteIdea(b: BoardState, id: string, confirmed: bool): (r: BoardState)
    ensures FindIdea(b.ideas, id).None? || !confirmed ==> r == b
    ensures FindIdea(b.ideas, id).Some? && confirmed ==>
      && |r.ideas| < |b.ideas|
      && r.ideas == Filter(b.ideas, (i: Idea) => i.id != id)
      && multiset(r.ideas) == multiset(b.ideas) - multiset(Filter(b.ideas, (i: Idea) => i.id == id))
      && (forall k :: 0 <= k < |r.ideas| ==> r.ideas[k] in b.ideas && r.ideas[k].id != id)
      && (forall k :: 0 <= k < |b.ideas| && b.ideas[k].id != id ==> b.ideas[k] in r.ideas)
      && (r.selected.None? <==> b.selected.None? || b.selected.value.id == id)
      && (r.selected.Some? ==> r.selected == b.selected)
  {
    if FindIdea(b.ideas, id).Some? && confirmed then
      DeleteShrinks(b.ideas, id);
      BoardState(Filter(b.ideas, (i: Idea) => i.id != id),
            if b.selected.Some? && b.selected.value.id == id then None else b.selected)
    else b
  }

  /** Removing a present id shrinks the list by exactly the ideas that carry it. */
  lemma DeleteShrinks(ideas: seq<Idea>, id: string)
    requires FindIdea(ideas, id).Some?
    ensures |Filter(ideas, (i: Idea) => i.id != id)| < |ideas|
    ensures multiset(Filter(ideas, (i: Idea) => i.id != id))
         == multiset(ideas) - multiset(Filter(ideas, (i: Idea) => i.id == id))
  {
    var kept := Filter(ideas, (i: Idea) => i.id != id);
    var gone := Filter(ideas, (i: Idea) => i.id == id);
    FilterComplement(ideas, (i: Idea) => i.id != id, (i: Idea) => i.id == id);
    assert FindIdea(ideas, id).value in gone;
    assert multiset(kept) + multiset(gone) == multiset(ideas);
    assert (multiset(kept) + multiset(gone)) - multiset(gone) == multiset(kept);
  }

  /** Deletion keeps the remaining ideas in their order: it distributes over any split of the list. */
  lemma DeleteKeepsOrder(a: seq<Idea>, c: seq<Idea>, id: string)
    ensures Filter(a + c, (i: Idea) => i.id != id) == Filter(a, (i: Idea) => i.id != id) + Filter(c, (i: Idea) => i.id != id)
  {
    FilterAppend(a, c, (i: Idea) => i.id != id);
  }

  // ----- inviting -----

  function ParticipantList(i: Idea): seq<Participant> {
    i.participants.GetOr([])
  }

  predicate HasParticipant(ps: seq<Participant>, pid: string) {
    exists k :: 0 <= k < |ps| && ps[k].id == pid
  }

  /** Adds the participant unless one with the same id is already there. */
  function AddParticipant(i: Idea, p: Participant): (r: Idea)
    ensures HasParticipant(ParticipantList(r), p.id)
    ensures HasParticipant(ParticipantList(i), p.id) ==> r == i
    ensures !HasParticipant(ParticipantList(i), p.id) ==>
      r == i.(participants := Some(ParticipantList(i) + [p]))
  {
    var ps := ParticipantList(i);
    if HasParticipant(ps, p.id) then i
    else
      assert (ps + [p])[|ps|].id == p.id;
      i.(participants := Some(ps + [p]))
  }

  /** The invite form demands at least one selected project. */
  predicate InviteAccepts(projectIds: seq<string>) {
    |projectIds| >= 1
  }

  /**
   * Sending an invite: the participant (chosen at random by the board) joins
   * each selected idea it is not already on, and the open idea too if selected.
   */
  function SubmitInvite(b: BoardState, projectIds: seq<string>, p: Participant): (r: Option<BoardState>)
    ensures r.Some? <==> InviteAccepts(projectIds)
    ensures r.Some? ==>
      && |r.value.ideas| == |b.ideas|
      && (forall k :: 0 <= k < |b.ideas| && b.ideas[k].id !in projectIds ==> r.value.ideas[k] == b.ideas[k])
      && (forall k :: 0 <= k < |b.ideas| && b.ideas[k].id in projectIds ==>
            r.value.ideas[k] == AddParticipant(b.ideas[k], p))
      && (forall k :: 0 <= k < |b.ideas| && b.ideas[k].id in projectIds ==>
            HasParticipant(ParticipantList(r.value.ideas[k]), p.id))
      && (b.selected.Some? && b.selected.value.id in projectIds ==>
            r.value.selected == Some(AddParticipant(b.selected.value, p)))
      && (b.selected.None? || b.selected.value.id !in projectIds ==> r.value.selected == b.selected)
  {
    if !InviteAccepts(projectIds) then None
    else
      var ideas := seq(|b.ideas|, k requires 0 <= k < |b.ideas| =>
        if b.ideas[k].id in projectIds then AddParticipant(b.ideas[k], p) else b.ideas[k]);
      var selected := if b.selected.Some? && b.selected.value.id in projectIds
                      then Some(AddParticipant(b.selected.value, p)) else b.selected;
      Some(BoardState(ideas, selected))
  }

  predicate DistinctParticipants(i: Idea) {
    var ps := ParticipantList(i);
    forall j, k :: 0 <= j < k < |ps| ==> ps[j].id != ps[k].id
  }

  /** Inviting never puts the same participant on an idea twice. */
  lemma InviteKeepsParticipantsDistinct(b: BoardState, projectIds: seq<string>, p: Participant)
    requires InviteAccepts(projectIds)
    requires forall k :: 0 <= k < |b.ideas| ==> DistinctParticipants(b.ideas[k])
    ensures forall k :: 0 <= k < |b.ideas| ==> DistinctParticipants(SubmitInvite(b, projectIds, p).value.ideas[k])
  {
    var r := SubmitInvite(b, projectIds, p).value;
    forall k | 0 <= k < |b.ideas|
      ensures DistinctParticipants(r.ideas[k])
    {
      var i := b.ideas[k];
      if i.id in projectIds && !HasParticipant(ParticipantList(i), p.id) {
        var ps := ParticipantList(i);
        assert ParticipantList(r.ideas[k]) == ps + [p];
      }
    }
  }

  /**
   * The project checkbox: checking appends the id, unchecking drops every
   * copy of it; the pre-selected project's box is disabled and ignores clicks.
   */
  function ToggleProject(current: seq<string>, id: string, checked: bool, preSelected: set<string>): (r: seq<string>)
    ensures id in preSelected ==> r == current
    ensures id !in preSelected && checked ==> r == current + [id]
    ensures id !in preSelected && !checked ==>
      id !in r && forall x :: x != id ==> (x in r <==> x in current)
  {
    if id in preSelected then current
    else if checked then current + [id]
    else Filter(current, (x: string) => x != id)
  }

  datatype Toggle = Toggle(id: string, checked: bool)

  function ApplyToggles(current: seq<string>, toggles: seq<Toggle>, preSelected: set<string>): seq<string>
    decreases |toggles|
  {
    if toggles == [] then current
    else ApplyToggles(ToggleProject(current, toggles[0].id, toggles[0].checked, preSelected), toggles[1..], preSelected)
  }

  /** Whatever boxes are clicked, a pre-selected project stays selected, so the invite can be sent. */
  lemma {:induction false} PreselectedStays(current: seq<string>, toggles: seq<Toggle>, preSelected: set<string>, pid: string)
    requires pid in preSelected && pid in current
    ensures pid in ApplyToggles(current, toggles, preSelected)
    ensures InviteAccepts(ApplyToggles(current, toggles, preSelected))
    decreases |toggles|
  {
    if toggles != [] {
      var next := ToggleProject(current, toggles[0].id, toggles[0].checked, preSelected);
      assert pid in next;
      PreselectedStays(next, toggles[1..], preSelected, pid);
    }
  }
}

=== FILE: ledger.dfy ===
/**
 * The agent ledger's records as the database holds them: agents with their
 * budgets, the action log and the alerts, and the current-month spend that
 * both the enforcer and the dashboard derive from the log.
 */
module Ledger {
  import opened Options

  /** Milliseconds since the epoch. */
  type Timestamp = int

  /** Amounts in dollars; the application stores JavaScript numbers, modelled here without rounding. */
  type Money = real

  const ACTIVE: string := "active"
  const PAUSED: string := "paused"
  const BUDGET_EXCEEDED: string := "budget_exceeded"

  /** The status is free text: agent creation stores whatever it is given. */
  datatype Agent = Agent(
    id: string,
    name: string,
    role: string,
    ownerId: string,
    status: string,
    monthlyBudget: Money,
    perActionLimit: Money,
    createdAt: Timestamp)

  datatype ActionLog = ActionLog(
    id: string,
    agentId: string,
    actionType: string,
    target: string,
    cost: Money,
    outcome: string,
    metadata: Option<string>,
    createdAt: Timestamp)

  /** What the budget alert's text reports: the configured budget and the attempted total. */
  datatype AlertMessage = BudgetExceededMessage(budget: Money, attemptedSpend: Money)

  datatype Alert = Alert(
    id: string,
    agentId: string,
    kind: string,
    message: AlertMessage,
    createdAt: Timestamp)

  /** The three tables, each in insertion order. */
  datatype Store = Store(agents: seq<Agent>, logs: seq<ActionLog>, alerts: seq<Alert>)

  /** Agent ids are primary keys. */
  predicate UniqueIds(agents: seq<Agent>) {
    forall i, j :: 0 <= i < j < |agents| ==> agents[i].id != agents[j].id
  }

  predicate HasAgent(agents: seq<Agent>, id: string) {
    exists i :: 0 <= i < |agents| && agents[i].id == id
  }

  /** What the database guarantees: unique keys, and every log and alert points at an existing agent. */
  predicate Valid(s: Store) {
    && UniqueIds(s.agents)
    && (forall k :: 0 <= k < |s.logs| ==> HasAgent(s.agents, s.logs[k].agentId))
    && (forall k :: 0 <= k < |s.alerts| ==> HasAgent(s.agents, s.alerts[k].agentId))
  }

  /** Lookup by primary key: the position of the first agent with the id. */
  function FindAgent(agents: seq<Agent>, id: string): (r: Option<nat>)
    ensures r.Some? ==> r.value < |agents| && agents[r.value].id == id
    ensures r.Some? ==> forall j :: 0 <= j < r.value ==> agents[j].id != id
    ensures r.None? <==> !HasAgent(agents, id)
    decreases |agents|
  {
    if agents == [] then None
    else if agents[0].id == id then Some(0)
    else
      match FindAgent(agents[1..], id)
      case None => None
      case Some(k) => Some(k + 1)
  }

  /** With unique ids, the agent found is the only one with that id. */
  lemma FindUnique(agents: seq<Agent>, i: nat)
    requires UniqueIds(agents)
    requires i < |agents|
    ensures FindAgent(agents, agents[i].id) == Some(i)
  {
  }

  /** A log counts towards an agent's month when it is that agent's and dated at or after the month start. */
  predicate InWindow(log: ActionLog, agentId: string, monthStart: Timestamp) {
    log.agentId == agentId && log.createdAt >= monthStart
  }

  /**
   * The sum of the costs of the agent's logs in the window, the value of the
   * database aggregate (an empty aggregate is null and read as 0).
   */
  function MonthSpend(logs: seq<ActionLog>, agentId: string, monthStart: Timestamp): (r: Money)
    ensures (forall k :: 0 <= k < |logs| ==> !InWindow(logs[k], agentId, monthStart)) ==> r == 0.0
    ensures (forall k :: 0 <= k < |logs| ==> logs[k].cost >= 0.0) ==> r >= 0.0
    decreases |logs|
  {
    if logs == [] then 0.0
    else
      var last := logs[|logs| - 1];
      MonthSpend(logs[..|logs| - 1], agentId, monthStart)
        + (if InWindow(last, agentId, monthStart) then last.cost else 0.0)
  }

  /** Appending a log adds its cost to exactly the spend of the agent and window it falls in. */
  lemma MonthSpendAppend(logs: seq<ActionLog>, log: ActionLog, agentId: string, monthStart: Timestamp)
    ensures MonthSpend(logs + [log], agentId, monthStart)
         == MonthSpend(logs, agentId, monthStart) + (if InWindow(log, agentId, monthStart) then log.cost else 0.0)
  {
    assert (logs + [log])[..|logs|] == logs;
  }
}

=== FILE: options.dfy ===
/** An optional value: JavaScript's `undefined`/`null` next to a present value. */
module Options {

  datatype Option<+T> = None | Some(value: T) {

    /** The value when present, the given default otherwise (`x ?? d`, `x || d`). */
    function GetOr(default: T): T {
      match this
      case Some(v) => v
      case None => default
    }
  }
}

=== FILE: seqs.dfy ===
/** Order-preserving filtering of sequences, the model of JavaScript's `Array.prototype.filter`. */
module Seqs {

  /** The elements of `s` that `keep` accepts, in their original order. */
  function Filter<T>(s: seq<T>, keep: T -> bool): (r: seq<T>)
    ensures |r| <= |s|
    ensures forall i :: 0 <= i < |r| ==> r[i] in s && keep(r[i])
    ensures forall i :: 0 <= i < |s| && keep(s[i]) ==> s[i] in r
    decreases |s|
  {
    if s == [] then []
    else (if keep(s[0]) then [s[0]] else []) + Filter(s[1..], keep)
  }

  /** Filtering a concatenation filters each part: the kept elements keep their relative order. */
  lemma {:induction false} FilterAppend<T>(a: seq<T>, b: seq<T>, keep: T -> bool)
    ensures Filter(a + b, keep) == Filter(a, keep) + Filter(b, keep)
    decreases |a|
  {
    if a == [] {
      assert a + b == b;
    } else {
      assert (a + b)[0] == a[0];
      assert (a + b)[1..] == a[1..] + b;
      FilterAppend(a[1..], b, keep);
    }
  }

  /** Two complementary filters split a sequence: sizes add up and no element is lost or doubled. */
  lemma {:induction false} FilterComplement<T>(s: seq<T>, keep: T -> bool, other: T -> bool)
    requires forall i :: 0 <= i < |s| ==> other(s[i]) == !keep(s[i])
    ensures |Filter(s, keep)| + |Filter(s, other)| == |s|
    ensures multiset(Filter(s, keep)) + multiset(Filter(s, other)) == multiset(s)
    decreases |s|
  {
    if s != [] {
      FilterComplement(s[1..], keep, other);
      assert s == [s[0]] + s[1..];
    }
  }
}

=== FILE: text.dfy ===
/**
 * JavaScript string views used by the model: strings are sequences of Unicode
 * scalar values (`string`), while `length` and `charCodeAt` see UTF-16 code
 * units; template literals render non-negative integers in decimal.
 */
module Text {

  /** A UTF-16 code unit, the value `charCodeAt` returns. */
  type CodeUnit = x: int | 0 <= x < 0x1_0000

  /** The UTF-16 encoding of one character: itself, or a surrogate pair above the BMP. */
  function CodeUnits(c: char): (r: seq<CodeUnit>)
    ensures 1 <= |r| <= 2
    ensures |r| == 1 <==> c as int < 0x1_0000
    ensures |r| == 1 ==> r[0] == c as int
    ensures |r| == 2 ==> 0xD800 <= r[0] < 0xDC00 && 0xDC00 <= r[1] < 0xE000
    ensures |r| == 2 ==> (r[0] as int - 0xD800) * 0x400 + (r[1] as int - 0xDC00) + 0x1_0000 == c as int
  {
    var v := c as int;
    if v < 0x1_0000 then [v]
    else [0xD800 + (v - 0x1_0000) / 0x400, 0xDC00 + (v - 0x1_0000) % 0x400]
  }

  /** The UTF-16 code units of a string, as JavaScript stores it. */
  function Utf16(s: string): (r: seq<CodeUnit>)
    ensures |s| <= |r| <= 2 * |s|
    ensures (forall i :: 0 <= i < |s| ==> s[i] as int < 0x1_0000) ==> |r| == |s|
    ensures (forall i :: 0 <= i < |s| ==> s[i] as int < 0x1_0000) ==> forall i :: 0 <= i < |s| ==> r[i] == s[i] as int
    decreases |s|
  {
    if s == [] then []
    else Utf16(s[..|s| - 1]) + CodeUnits(s[|s| - 1])
  }

  /** JavaScript's `s.length`. */
  function JsLength(s: string): nat {
    |Utf16(s)|
  }

  predicate IsDigit(c: char) {
    '0' <= c <= '9'
  }

  predicate AllDigits(s: string) {
    forall i :: 0 <= i < |s| ==> IsDigit(s[i])
  }

  function DigitChar(d: int): (c: char)
    requires 0 <= d < 10
    ensures IsDigit(c)
  {
    (d + '0' as int) as char
  }

  function DigitValue(c: char): (d: int)
    requires IsDigit(c)
    ensures 0 <= d < 10
  {
    c as int - '0' as int
  }

  /** The decimal rendering of a non-negative integer in a template literal: no sign, no leading zero. */
  function Decimal(n: nat): (r: string)
    ensures 1 <= |r|
    ensures AllDigits(r)
    ensures |r| > 1 ==> r[0] != '0'
    decreases n
  {
    if n < 10 then [DigitChar(n)]
    else Decimal(n / 10) + [DigitChar(n % 10)]
  }

  /** Reads a string of decimal digits back as a number. */
  function ParseDecimal(s: string): nat
    requires AllDigits(s)
    decreases |s|
  {
    if s == [] then 0
    else ParseDecimal(s[..|s| - 1]) * 10 + DigitValue(s[|s| - 1])
  }

  /** Rendering a number in decimal and reading it back gives the number. */
  lemma {:induction false} DecimalRoundTrip(n: nat)
    ensures ParseDecimal(Decimal(n)) == n
    decreases n
  {
    if n >= 10 {
      var r := Decimal(n);
      assert r[..|r| - 1] == Decimal(n / 10);
      DecimalRoundTrip(n / 10);
    }
  }
}
